=== FILE: README.md ===
# Robotic car firmware: motor outputs and command dispatcher

A Dafny model of the ESP32 firmware in `src/main.py` that drives a
two-motor, differential-steering car through an H-bridge and takes commands
over a BLE UART link. The model covers the part of the firmware with logic in
it:

- **the six motor outputs** (`ENA`, `IN1`, `IN2` for the left motor; `ENB`,
  `IN3`, `IN4` for the right), all at 0 after power-up, and the seven
  operations that rewrite them: `activar_motores`, `desactivar_motores`,
  `adelante`, `atras`, `izquierda`, `derecha` and `detener`
  (`motors.dfy`, module `Motors`);
- **the receive callback `on_rx`**: the decoded line is stripped with
  MicroPython's `str.strip()`, which removes only space, tab, line feed,
  carriage return, vertical tab and form feed (`text.dfy`, module `Text`), matched by exact
  equality against the control-pad codes `!B516 !B615 !B714 !B813` (pressed),
  `!B507 !B606 !B705 !B804` (released) and the keywords `ACTIVAR`,
  `DESACTIVAR`, `ESTADO`, `AYUDA`, applied to the outputs, answered with the
  text the firmware writes back, and counted (`dispatcher.dfy`, module
  `Dispatcher`);
- **the start-up and shutdown sequences**: the banner message, the self-test
  pulse `activar_motores; detener`, and `detener; desactivar_motores` on
  interruption (`firmware.dfy`, module `Firmware`). The receive callback is
  registered at line 161, before all of these, and is never unregistered, so
  a run is any interleaving of received lines with these steps: a line may be
  handled before the banner, during the pulse, between the two shutdown
  writes, and so on.

Every operation is a pure function. The outputs are a six-field record
`Pins` of booleans (`true` is a pin at 1). `Dispatcher.OnRx` takes the pins,
the command counter and the inbound text, and returns the new pins, the reply
(if any) and the new counter. The inbound text is an `Option<string>`:
`None` stands for a read or decode failure at line 108, which the `except`
clause catches before the counter moves.

Most of the model treats each of the seven operations as one step from the
outputs before it to the outputs after it. At that granularity, beyond "no
channel has both direction lines high", the model proves the exact set of
output states the firmware can be in between operations: both enables at the
same level, and the direction lines either all at 0 or each channel driven by
exactly one line (`Motors.Coherent`). Every sequence of operations, every
sequence of inbound lines, and every interleaving of inbound lines with the
start-up and shutdown steps stays inside it. Every state inside it is reached
from power-up by some sequence of operations, and also by some sequence of
recognised inbound lines (`Dispatcher.LinesReachEveryCoherent`).

The states inside an operation are modelled separately, as the list of
single `Pin.value(...)` writes each operation makes (`Motors.SourceWrites`).
In the order the firmware writes them, `adelante`, `izquierda` and `derecha`
can raise a direction line while the other line of the same channel is still
high. `Motors.SourceOrderOverlaps` shows this happening for a forward press
after a reverse press (see "## Findings"). Writing each channel's falling line
before its rising one (`Motors.SafeWrites`) ends in the same state, and keeps
both channels exclusive after every single write
(`Motors.SafeOrderNeverBothDirections`).

To judge what a state does to the car, `Motors.MotionOf` derives the motion
from the pins (a wheel turns only when its enable is on and exactly one of its
direction lines is high). The source has no such function; it names the intent
each operation's comments state (forward, reverse, turning left, turning
right, stopped).

On these points the model follows what the code does, which a reader of the
firmware's comments might expect otherwise:

- a line that fails to decode does **not** advance the counter, because the
  exception is raised on line 108 before the increment on line 110;
- the unknown-command reply quotes the **stripped** text, not the raw text;
- every reply written by `on_rx` ends in `"\n"`;
- the help text is reproduced word for word, including its abbreviation
  `!B5/6/7/807:Detener` of the four release codes.

## Model

| member | source | states |
|---|---|---|
| Motors.ActivarMotores | src/main.py:26-29 | both enables end at 1 and the four direction lines are unchanged |
| Motors.DesactivarMotores | src/main.py:31-34 | both enables end at 0, the direction lines are unchanged, and no wheel turns |
| Motors.Adelante | src/main.py:36-45 | both wheels turn forward (enable on, IN1/IN3 high, IN2/IN4 low) whatever the prior state |
| Motors.Atras | src/main.py:47-56 | both wheels turn backward (enable on, IN2/IN4 high, IN1/IN3 low) whatever the prior state |
| Motors.Izquierda | src/main.py:58-68 | left wheel backward and right wheel forward: an in-place left turn |
| Motors.Derecha | src/main.py:70-80 | left wheel forward and right wheel backward: an in-place right turn |
| Motors.Detener | src/main.py:82-91 | every one of the six outputs ends at 0, whatever the prior state |
| Motors.SpinsDeterminePins | src/main.py:36-80 | the wheel motions named by the movement contracts fix all six pins, so those contracts state the exact output pattern |
| Motors.ApplyIdempotent | src/main.py:26-91 | applying any of the seven operations twice gives the same outputs as applying it once |
| Motors.CoherentIsSafe | src/main.py:36-80 | a reachable state never has both direction lines of a channel high and never turns just one wheel |
| Motors.ApplyAllKeepsCoherent | src/main.py:26-91 | no sequence of operations leaves the reachable set |
| Motors.NeverBothDirections | src/main.py:19-91 | from the all-zero power-up state, no sequence of operations drives IN1 and IN2, or IN3 and IN4, high together between operations |
| Motors.Set | src/main.py:19-91 | one pin write drives its output to the written level and leaves the other five alone |
| Motors.ExclusiveThroughoutPrefixes | src/main.py:36-91 | a list of writes keeps the channels exclusive throughout exactly when every prefix of it leaves them exclusive |
| Motors.SourceWritesPerformOp | src/main.py:26-91 | each operation's pin writes, in the order the firmware makes them, end in the state the operation names |
| Motors.SafeWritesPerformOp | src/main.py:26-91 | the falling-line-first order ends in the same state as the firmware's order |
| Motors.SourceOrderOverlaps | src/main.py:36-56 | as written, `adelante` right after `atras` passes through ENA=IN1=IN2=1 and then ENB=IN3=IN4=1 |
| Motors.SafeOrderExclusive | src/main.py:36-91 | in the falling-line-first order, every operation started from an exclusive state is exclusive after every single write |
| Motors.SafeOrderNeverBothDirections | src/main.py:19-91 | from power-up, after any sequence of operations, every single write of the next operation in the falling-line-first order leaves both channels exclusive |
| Motors.CoherentIsReachable | src/main.py:19-91 | every state of the reachable set is produced from power-up by some sequence of operations |
| Text.IsSpace | src/main.py:108 | the characters `strip()` removes are exactly space, tab, line feed, carriage return, vertical tab and form feed |
| Text.Start | src/main.py:108 | finds where the leading whitespace run ends: every earlier character is whitespace and the one there is not |
| Text.End | src/main.py:108 | finds where the trailing whitespace run begins, never before the leading cut: every later character is whitespace and the one before is not |
| Text.Strip | src/main.py:108 | the result is the text with a whitespace run cut from each end, and starts and ends with a non-space character |
| Text.StripUnique | src/main.py:108 | any cut of whitespace from both ends that leaves no whitespace at either end is the stripped text |
| Text.StripClean | src/main.py:108 | a text with no whitespace at either end strips to itself |
| Text.StripIdempotent | src/main.py:108 | stripping a stripped text changes nothing |
| Text.StripPadded | src/main.py:108 | a text with no whitespace at its ends, padded with whitespace, strips back to itself |
| Text.StripAbsorbsPadding | src/main.py:108 | extra whitespace around any text does not change what it strips to |
| Dispatcher.Parse | src/main.py:114-154 | a line is recognised exactly when it is one of the twelve table entries; a recognised line maps to the command with that text and any other line is kept verbatim as unknown |
| Dispatcher.ParseWire | src/main.py:114-146 | the twelve table entries are distinct: parsing a command's text gives that command back |
| Dispatcher.Execute | src/main.py:114-154 | button codes write no reply and every other line writes one; release leaves all outputs at 0; press enables both motors with exclusive direction lines; the keywords touch only the enables; queries and unknown lines leave the outputs alone; reachability is preserved |
| Dispatcher.ExecuteUsesOperations | src/main.py:114-138 | the dispatcher changes the outputs only by calling the motor operations |
| Dispatcher.OnRx | src/main.py:100-158 | a decode failure changes nothing and writes nothing; a decoded line advances the counter by one; a line outside the table leaves the outputs and writes the unknown-command reply |
| Dispatcher.OnRxWire | src/main.py:108-154 | a recognised line is carried out as its command and counted |
| Dispatcher.PressCodes | src/main.py:112-124 | each press code performs its movement and writes no reply |
| Dispatcher.ReleaseCodesAgree | src/main.py:126-129 | the four release codes all have the effect of `detener`, whatever the prior state, with no reply |
| Dispatcher.EnableKeywords | src/main.py:132-138 | `ACTIVAR` and `DESACTIVAR` perform the enable operations and reply exactly "Motores activados\n" and "Motores desactivados\n" |
| Dispatcher.ActivarThenDesactivar | src/main.py:132-138 | `ACTIVAR` then `DESACTIVAR` leaves the four direction lines as they were, both enables at 0, and the counter two higher |
| Dispatcher.EstadoReports | src/main.py:140-144 | `ESTADO` leaves the outputs alone and replies with a status line that reads back as the current six levels |
| Dispatcher.EstadoAfterForward | src/main.py:114-144 | `ESTADO` right after the forward press reports both enables on and the forward lines set, and changes nothing |
| Dispatcher.ReadJoinRoundTrip | src/main.py:142-143 | the comma-separated `NAME:level` entries read back as the levels they were written from |
| Dispatcher.ReadJoinExact | src/main.py:142-143 | any text the entry reader accepts is exactly the entries of the levels it read |
| Dispatcher.StatusLine | src/main.py:142-144 | the `ESTADO` reply lists the six outputs so that the status reader recovers every level from it |
| Dispatcher.StatusExact | src/main.py:140-144 | a text the status reader accepts is the status reply of the outputs it reads |
| Dispatcher.StatusInjective | src/main.py:140-144 | different output states never produce the same status reply |
| Dispatcher.AyudaReplies | src/main.py:146-150 | `AYUDA` leaves the outputs alone and replies with the fixed help text |
| Dispatcher.SilentIffButtonCode | src/main.py:112-154 | a line gets no reply exactly when its stripped text is one of the eight button codes |
| Dispatcher.OtherRepliesDiffer | src/main.py:132-154 | the replies to `ACTIVAR`, `DESACTIVAR`, `AYUDA` and `ESTADO` are never the unknown-command reply |
| Dispatcher.UnknownIsReadOnly | src/main.py:152-154 | a line outside the table changes only the counter and gets "Comando desconocido: " + stripped text + "\n"; a line inside the table never gets that reply |
| Dispatcher.PaddingIgnored | src/main.py:108-114 | whitespace around a line does not change what the callback does |
| Dispatcher.NoBreakSpaceKept | src/main.py:108-154 | a line starting with a no-break space is not stripped to `ACTIVAR`: it leaves the outputs alone and gets the unknown-command reply |
| Dispatcher.Run | src/main.py:100-158 | feeding lines to the callback one at a time counts exactly the decoded lines, keeps coherent outputs coherent, and writes at most one reply per line |
| Dispatcher.DispatchNeverBothDirections | src/main.py:19-158 | from power-up, after any sequence of inbound lines has been handled, no channel has both direction lines high |
| Dispatcher.FailuresInvisible | src/main.py:106-158 | lines that fail to decode change neither outputs, counter nor replies |
| Dispatcher.CommandFor | src/main.py:114-138 | each motor operation has a recognised command whose only effect on the outputs is that operation |
| Dispatcher.LinesFor | src/main.py:114-138 | one recognised table entry per requested operation |
| Dispatcher.LinesPerformOps | src/main.py:100-138 | sending those lines performs the operations in order |
| Dispatcher.LinesReachEveryCoherent | src/main.py:19-138 | every coherent output state is reached from power-up by some sequence of recognised lines |
| Firmware.SelfTest | src/main.py:184-188 | the start-up pulse ends with every output at 0 |
| Firmware.SelfTestNeverMoves | src/main.py:184-188 | from power-up, with no line received, both enables are on during the pulse but no direction line is set, so neither wheel turns |
| Firmware.Shutdown | src/main.py:201-205 | the shutdown sequence ends with every output at 0 from any state |
| Firmware.ShutdownIsStop | src/main.py:204-205 | the `desactivar_motores` after `detener` at shutdown adds nothing |
| Firmware.Replay | src/main.py:161-205 | a run of events counts exactly its decoded lines wherever they fall, keeps coherent outputs coherent, and only appends to what was written |
| Firmware.Step | src/main.py:161-205 | one event (a received line, the banner, or a main-program motor operation) keeps the outputs coherent, moves the counter only for a decoded line, and only appends to what was written |
| Firmware.SessionNeverBothDirections | src/main.py:161-205 | between any two events of any run from power-up, lines handled during start-up and shutdown included, the outputs are coherent and no channel has both direction lines high |
| Firmware.StartupAlone | src/main.py:180-188 | with no line received, start-up writes the banner and leaves every output at 0 |
| Firmware.EarlyPressCancelled | src/main.py:161-188 | a press handled before the pulse drives forward until the pulse's `detener`, which then stops the car |
| Firmware.ShutdownEndsLow | src/main.py:201-205 | the shutdown writes with no line in between leave every output at 0 |
| Firmware.ShutdownDisables | src/main.py:161-205 | lines handled between the two shutdown writes may set direction lines, but both enables end at 0 and no wheel turns |
| Firmware.RunSession | src/main.py:161-205 | a whole run from power-up counts exactly its decoded lines and ends with coherent outputs |

## Left out

- The BLE stack (`bluetooth.BLE`, `BLEUART`, the advertised name
  `ESP32-Motores`, `uart.irq` registration, `uart.read`): transport provided by
  a foreign library. The model receives each read as a string and returns the
  text that `uart.write` would send.
- Byte decoding (`.decode()`): the callback's input is the decoded text, or
  `None` when reading or decoding raised.
- Failures of `uart.write` inside `on_rx`: the write is taken to succeed.
  The BLE module is not part of this model.
- `machine.Pin` construction and pin numbers: each output is a stored bit.
- `time.sleep` delays, the idle `while True` loop and the `KeyboardInterrupt`
  handler: only the operation sequences they lead to are modelled
  (`Firmware.SelfTest`, `Firmware.Shutdown`).
- `print` logging, including the counter value printed before each increment:
  console output with no effect on state.
- Where a `KeyboardInterrupt` lands: one raised before the `try` at line 195
  ends the program without the shutdown writes. The model lets a run contain
  any main-program steps in any order, so its lemmas hold whether or not the
  shutdown steps appear.
- Lines handled after the process exits: nothing is modelled past the last
  event of a run.
- NeverBothDirections: holds between operations only, since each operation
  is one step there. The states between the single pin writes inside an
  operation are covered by `Motors.SourceOrderOverlaps` (as written, they can
  break exclusivity) and `Motors.SafeOrderNeverBothDirections` (in the
  corrected order, they cannot).
- DispatchNeverBothDirections: holds after each handled line, not between
  the pin writes the line's operation makes, for the same reason.
- SessionNeverBothDirections: holds between events, not between the pin
  writes inside a main-program operation or a handled line, for the same
  reason.
- `enviar_mensaje`'s exception swallowing: only the banner text it writes is
  modelled (`Firmware.Banner`).

## Findings

| source | as written | input that shows it | evidently intended | confidence | as-written member | corrected member |
|---|---|---|---|---|---|---|
| src/main.py:36-80 | `adelante` writes IN1=1 before IN2=0 and IN3=1 before IN4=0; `derecha` writes IN1=1 before IN2=0; `izquierda` writes IN3=1 before IN4=0 | `!B615` then `!B516`: after line 41 ENA=IN1=IN2=1, and after line 44 ENB=IN3=IN4=1 | a channel's two direction lines are never high together, not even between two writes, so the falling line is written first | medium (on an L298-style bridge both lines high with the enable on brakes the motor for the time between the two writes); not executed | Motors.SourceOrderOverlaps | Motors.SafeOrderNeverBothDirections |

The rest of the model works with whole operations (`Motors.Apply`). Both write
orders end in the same state as `Motors.Apply` (`Motors.SourceWritesPerformOp`,
`Motors.SafeWritesPerformOp`), so every end-of-operation result holds for
either order.

=== FILE: dispatcher.dfy ===
/** The receive callback `on_rx`: one inbound line is decoded, stripped,
    matched against a fixed table of codes and keywords, applied to the pins,
    answered with an optional reply, and counted. */
module Dispatcher {
  import opened Wrappers
  import opened Text
  import opened Motors

  // ---------------------------------------------------------------------------
  // The command vocabulary

  /** The four arrow buttons of the phone app's control pad (buttons 5 to 8). */
  datatype Button = Up | Down | Left | Right

  /** What a stripped line means to the dispatcher. A release code names the
      button it came from, but every release is handled the same way. */
  datatype Command =
    | Press(button: Button)
    | Release(button: Button)
    | Activar
    | Desactivar
    | Estado
    | Ayuda
    | Unknown(text: string)

  /** The code the app sends while a button is held down. */
  function PressCode(b: Button): string {
    match b
    case Up => "!B516"
    case Down => "!B615"
    case Left => "!B714"
    case Right => "!B813"
  }

  /** The code the app sends when a button is let go. */
  function ReleaseCode(b: Button): string {
    match b
    case Up => "!B507"
    case Down => "!B606"
    case Left => "!B705"
    case Right => "!B804"
  }

  /** The exact text of a recognised command. */
  function Wire(c: Command): string
    requires !c.Unknown?
  {
    match c
    case Press(b) => PressCode(b)
    case Release(b) => ReleaseCode(b)
    case Activar => "ACTIVAR"
    case Desactivar => "DESACTIVAR"
    case Estado => "ESTADO"
    case Ayuda => "AYUDA"
  }

  /** Every line the dispatcher recognises. */
  const Vocabulary: set<string> := {
    "!B516", "!B615", "!B714", "!B813",
    "!B507", "!B606", "!B705", "!B804",
    "ACTIVAR", "DESACTIVAR", "ESTADO", "AYUDA"
  }

  /** Matches a stripped line by exact, case-sensitive equality, in the order
      the firmware tests the table. */
  function Parse(t: string): (c: Command)
    ensures c.Unknown? <==> t !in Vocabulary
    ensures c.Unknown? ==> c.text == t
    ensures !c.Unknown? ==> Wire(c) == t
  {
    if t == "!B516" then Press(Up)
    else if t == "!B615" then Press(Down)
    else if t == "!B714" then Press(Left)
    else if t == "!B813" then Press(Right)
    else if t == "!B507" then Release(Up)
    else if t == "!B606" then Release(Down)
    else if t == "!B705" then Release(Left)
    else if t == "!B804" then Release(Right)
    else if t == "ACTIVAR" then Activar
    else if t == "DESACTIVAR" then Desactivar
    else if t == "ESTADO" then Estado
    else if t == "AYUDA" then Ayuda
    else Unknown(t)
  }

  /** Parsing the text of a recognised command gives that command back, so no
      two commands share a text. */
  lemma ParseWire(c: Command)
    requires !c.Unknown?
    ensures Wire(c) in Vocabulary
    ensures Parse(Wire(c)) == c
  {
  }

  // ---------------------------------------------------------------------------
  // Replies

  /** A pin level as the firmware prints it. */
  function Digit(b: bool): char {
    if b then '1' else '0'
  }

  /** The names the status reply gives the six pins, in the order it lists them. */
  const Labels: seq<string> := ["ENA", "IN1", "IN2", "ENB", "IN3", "IN4"]

  /** The six levels in the order of `Labels`. */
  function Levels(p: Pins): seq<bool> {
    [p.ena, p.in1, p.in2, p.enb, p.in3, p.in4]
  }

  /** One `NAME:level` entry of the status reply. */
  function Field(name: string, b: bool): string {
    name + ":" + [Digit(b)]
  }

  /** The entries for `labels` and `bits`, separated by commas. */
  function Join(labels: seq<string>, bits: seq<bool>): string
    requires |labels| == |bits| > 0
    decreases |labels|
  {
    if |labels| == 1 then Field(labels[0], bits[0])
    else Field(labels[0], bits[0]) + "," + Join(labels[1..], bits[1..])
  }

  /** The reply to `ESTADO`: the six pin levels in the order ENA, IN1, IN2,
      ENB, IN3, IN4. */
  function StatusLine(p: Pins): (r: string)
    ensures ReadStatus(r) == Some(p)
  {
    var body := Join(Labels, Levels(p));
    var s := "Estado: " + body + "\n";
    assert s[..8] == "Estado: ";
    assert s[8..|s| - 1] == body;
    ReadJoinRoundTrip(Labels, Levels(p));
    s
  }

  /** A printed pin level. */
  predicate IsDigit(c: char) {
    c == '0' || c == '1'
  }

  /** Reads the comma-separated entries named by `labels` back into their
      levels, failing on any character out of place. */
  function ReadJoin(s: string, labels: seq<string>): (r: Option<seq<bool>>)
    requires |labels| > 0
    ensures r.Some? ==> |r.value| == |labels|
    decreases |labels|
  {
    var n := |labels[0]|;
    if |s| < n + 2 || s[..n] != labels[0] || s[n] != ':' || !IsDigit(s[n + 1]) then None
    else if |labels| == 1 then
      if |s| == n + 2 then Some([s[n + 1] == '1']) else None
    else if |s| < n + 3 || s[n + 2] != ',' then None
    else
      match ReadJoin(s[n + 3..], labels[1..])
      case None => None
      case Some(rest) => Some([s[n + 1] == '1'] + rest)
  }

  /** Reads the six levels back out of a status reply, or fails if `s` is not
      shaped like one. */
  function ReadStatus(s: string): Option<Pins> {
    if |s| < 9 || s[..8] != "Estado: " || s[|s| - 1] != '\n' then None
    else
      match ReadJoin(s[8..|s| - 1], Labels)
      case None => None
      case Some(b) => Some(Pins(b[0], b[1], b[2], b[3], b[4], b[5]))
  }

  /** The entries read back as the levels they were written from. */
  lemma {:induction false} ReadJoinRoundTrip(labels: seq<string>, bits: seq<bool>)
    requires |labels| == |bits| > 0
    ensures ReadJoin(Join(labels, bits), labels) == Some(bits)
    decreases |labels|
  {
    var s := Join(labels, bits);
    var f := Field(labels[0], bits[0]);
    var n := |labels[0]|;
    assert f[..n] == labels[0] && f[n] == ':' && f[n + 1] == Digit(bits[0]);
    if |labels| > 1 {
      assert s == f + "," + Join(labels[1..], bits[1..]);
      assert s[..n] == labels[0] && s[n] == ':' && s[n + 1] == Digit(bits[0]) && s[n + 2] == ',';
      assert s[n + 3..] == Join(labels[1..], bits[1..]);
      ReadJoinRoundTrip(labels[1..], bits[1..]);
      assert bits == [bits[0]] + bits[1..];
    } else {
      assert s == f && |s| == n + 2;
      assert bits == [bits[0]];
    }
  }

  /** Anything the reader accepts is exactly the entries for what it read:
      the reader admits no other spelling. */
  lemma {:induction false} ReadJoinExact(s: string, labels: seq<string>)
    requires |labels| > 0
    requires ReadJoin(s, labels).Some?
    ensures s == Join(labels, ReadJoin(s, labels).value)
    decreases |labels|
  {
    var n := |labels[0]|;
    var bits := ReadJoin(s, labels).value;
    assert Digit(bits[0]) == s[n + 1];
    if |labels| == 1 {
      assert s == s[..n] + [s[n]] + [s[n + 1]];
    } else {
      var tail := s[n + 3..];
      ReadJoinExact(tail, labels[1..]);
      assert bits[1..] == ReadJoin(tail, labels[1..]).value;
      assert s == s[..n] + [s[n]] + [s[n + 1]] + [s[n + 2]] + tail;
    }
  }

  /** A reply the reader accepts is the status reply of the pins it reads. */
  lemma StatusExact(s: string)
    requires ReadStatus(s).Some?
    ensures s == StatusLine(ReadStatus(s).value)
  {
    var body := s[8..|s| - 1];
    var q := ReadStatus(s).value;
    LevelsRead(s);
    ReadJoinExact(body, Labels);
    assert body == Join(Labels, Levels(q));
    assert s[..8] == "Estado: ";
    assert s[|s| - 1..] == "\n";
    SplitThree(s, 8, |s| - 1);
  }

  /** The levels the status reader returns are the ones the entry reader read. */
  lemma LevelsRead(s: string)
    requires ReadStatus(s).Some?
    ensures |s| >= 9
    ensures ReadJoin(s[8..|s| - 1], Labels) == Some(Levels(ReadStatus(s).value))
  {
    var b := ReadJoin(s[8..|s| - 1], Labels).value;
    assert |b| == |Labels| == 6;
    assert Levels(ReadStatus(s).value) == [b[0], b[1], b[2], b[3], b[4], b[5]] == b;
  }

  /** A string is its three pieces cut at `i` and `j`, put back together. */
  lemma SplitThree(s: string, i: nat, j: nat)
    requires i <= j <= |s|
    ensures s == s[..i] + s[i..j] + s[j..]
  {
  }

  /** Different pin states never give the same status reply. */
  lemma StatusInjective(p: Pins, q: Pins)
    requires StatusLine(p) == StatusLine(q)
    ensures p == q
  {
  }

  const ActivadosReply := "Motores activados\n"
  const DesactivadosReply := "Motores desactivados\n"
  const UnknownPrefix := "Comando desconocido: "

  /** The reply to `AYUDA`, word for word (including its abbreviation of the
      four release codes). */
  const HelpText := "Comandos:\n" + "!B516:Adelante\n!B615:Atr\U{E1}s\n!B714:Izquierda\n"
    + "!B813:Derecha\n!B5/6/7/807:Detener\nACTIVAR/DESACTIVAR\nESTADO" + "\n"

  /** The reply to a line outside the table: the stripped line, quoted back. */
  function UnknownReply(t: string): string {
    UnknownPrefix + t + "\n"
  }

  // ---------------------------------------------------------------------------
  // Dispatch

  /** The movement each arrow button asks for. */
  function Drive(b: Button, p: Pins): Pins {
    match b
    case Up => Adelante(p)
    case Down => Atras(p)
    case Left => Izquierda(p)
    case Right => Derecha(p)
  }

  /** The pins after a command, and the reply written back, if any. */
  datatype Reaction = Reaction(pins: Pins, reply: Option<string>)

  /** Carries out one parsed command: the branches of the `if`/`elif` chain. */
  function Execute(p: Pins, c: Command): (r: Reaction)
    ensures Coherent(p) ==> Coherent(r.pins)
    ensures r.reply.None? <==> c.Press? || c.Release?
    ensures c.Estado? || c.Ayuda? || c.Unknown? ==> r.pins == p
    ensures c.Activar? || c.Desactivar? ==> SameDirections(p, r.pins)
    ensures c.Release? ==> AllLow(r.pins)
    ensures c.Press? ==> r.pins.ena && r.pins.enb && Exclusive(r.pins)
  {
    match c
    case Press(b) => Reaction(Drive(b, p), None)
    case Release(_) => Reaction(Detener(p), None)
    case Activar => Reaction(ActivarMotores(p), Some(ActivadosReply))
    case Desactivar => Reaction(DesactivarMotores(p), Some(DesactivadosReply))
    case Estado => Reaction(p, Some(StatusLine(p)))
    case Ayuda => Reaction(p, Some(HelpText))
    case Unknown(t) => Reaction(p, Some(UnknownReply(t)))
  }

  /** The operation a command performs on the pins, if any. */
  function ActionOf(c: Command): seq<Op> {
    match c
    case Press(Up) => [OpAdelante]
    case Press(Down) => [OpAtras]
    case Press(Left) => [OpIzquierda]
    case Press(Right) => [OpDerecha]
    case Release(_) => [OpDetener]
    case Activar => [OpActivar]
    case Desactivar => [OpDesactivar]
    case _ => []
  }

  /** The dispatcher changes the pins only through the motor operations. */
  lemma ExecuteUsesOperations(p: Pins, c: Command)
    ensures Execute(p, c).pins == ApplyAll(p, ActionOf(c))
  {
  }

  /** The firmware's state as the callback sees it: the pins and the count of
      lines received so far. */
  datatype Outcome = Outcome(pins: Pins, reply: Option<string>, received: nat)

  /** `on_rx`. `data` is the decoded inbound text, or `None` when reading or
      decoding it failed; that failure is caught before the counter moves, so
      nothing changes and nothing is written back. */
  function OnRx(p: Pins, received: nat, data: Option<string>): (r: Outcome)
    ensures data.None? ==> r == Outcome(p, None, received)
    ensures data.Some? ==> r.received == received + 1
    ensures Coherent(p) ==> Coherent(r.pins)
    ensures data.Some? && Strip(data.value) !in Vocabulary ==>
              r.pins == p && r.reply == Some(UnknownReply(Strip(data.value)))
  {
    match data
    case None => Outcome(p, None, received)
    case Some(raw) =>
      var reaction := Execute(p, Parse(Strip(raw)));
      Outcome(reaction.pins, reaction.reply, received + 1)
  }

  // ---------------------------------------------------------------------------
  // Properties of single lines

  /** No command text begins or ends with whitespace. */
  lemma WireIsClean(c: Command)
    requires !c.Unknown?
    ensures Clean(Wire(c))
  {
  }

  /** A recognised command arriving exactly as written is carried out as
      that command, and counted. */
  lemma OnRxWire(p: Pins, n: nat, c: Command)
    requires !c.Unknown?
    ensures OnRx(p, n, Some(Wire(c))) == Outcome(Execute(p, c).pins, Execute(p, c).reply, n + 1)
  {
    WireIsClean(c);
    StripClean(Wire(c));
    ParseWire(c);
  }

  /** Each press code performs its button's movement and writes nothing back. */
  lemma PressCodes(p: Pins, n: nat, b: Button)
    ensures OnRx(p, n, Some(PressCode(b))) == Outcome(Drive(b, p), None, n + 1)
  {
    OnRxWire(p, n, Press(b));
  }

  /** All four release codes have the same effect from any prior state: the
      effect of `detener`, all pins low, and no reply. */
  lemma ReleaseCodesAgree(p: Pins, n: nat, b: Button)
    ensures OnRx(p, n, Some(ReleaseCode(b))) == Outcome(Detener(p), None, n + 1)
    ensures AllLow(OnRx(p, n, Some(ReleaseCode(b))).pins)
  {
    OnRxWire(p, n, Release(b));
  }

  /** `ACTIVAR` and `DESACTIVAR` touch only the enables and answer with their
      fixed replies. */
  lemma EnableKeywords(p: Pins, n: nat)
    ensures OnRx(p, n, Some("ACTIVAR")) == Outcome(ActivarMotores(p), Some("Motores activados\n"), n + 1)
    ensures OnRx(p, n, Some("DESACTIVAR")) == Outcome(DesactivarMotores(p), Some("Motores desactivados\n"), n + 1)
  {
    OnRxWire(p, n, Activar);
    OnRxWire(p, n, Desactivar);
  }

  /** `ACTIVAR` followed by `DESACTIVAR` leaves the four direction lines as they
      were before either line, with both enables low afterwards. */
  lemma ActivarThenDesactivar(p: Pins, n: nat)
    ensures var first := OnRx(p, n, Some("ACTIVAR"));
            var second := OnRx(first.pins, first.received, Some("DESACTIVAR"));
            && SameDirections(p, second.pins)
            && !second.pins.ena && !second.pins.enb
            && first.reply == Some("Motores activados\n")
            && second.reply == Some("Motores desactivados\n")
            && second.received == n + 2
  {
    EnableKeywords(p, n);
    EnableKeywords(ActivarMotores(p), n + 1);
  }

  /** `ESTADO` leaves the pins alone and reports all six levels. */
  lemma EstadoReports(p: Pins, n: nat)
    ensures OnRx(p, n, Some("ESTADO")).pins == p
    ensures OnRx(p, n, Some("ESTADO")).reply == Some(StatusLine(p))
    ensures ReadStatus(OnRx(p, n, Some("ESTADO")).reply.value) == Some(p)
  {
    OnRxWire(p, n, Estado);
  }

  /** `ESTADO` right after the forward press reports both enables on and the
      forward direction line of each channel set, and changes nothing. */
  lemma EstadoAfterForward(p: Pins, n: nat)
    ensures var moved := OnRx(p, n, Some(PressCode(Up)));
            var asked := OnRx(moved.pins, moved.received, Some("ESTADO"));
            && asked.pins == moved.pins
            && asked.reply.Some?
            && ReadStatus(asked.reply.value) == Some(Pins(true, true, false, true, true, false))
  {
    PressCodes(p, n, Up);
    EstadoReports(Adelante(p), n + 1);
  }

  /** `AYUDA` leaves the pins alone and answers with the fixed help text. */
  lemma AyudaReplies(p: Pins, n: nat)
    ensures OnRx(p, n, Some("AYUDA")) == Outcome(p, Some(HelpText), n + 1)
  {
    OnRxWire(p, n, Ayuda);
  }

  /** A line is left unanswered exactly when it is one of the eight button codes. */
  lemma SilentIffButtonCode(p: Pins, n: nat, raw: string)
    ensures OnRx(p, n, Some(raw)).reply.None? <==>
            exists b: Button :: Strip(raw) == PressCode(b) || Strip(raw) == ReleaseCode(b)
  {
    var t := Strip(raw);
    var c := Parse(t);
    assert OnRx(p, n, Some(raw)).reply == Execute(p, c).reply;
    if c.Press? || c.Release? {
      assert t == Wire(c);
    } else {
      forall b: Button ensures t != PressCode(b) && t != ReleaseCode(b) {
        ParseWire(Press(b));
        ParseWire(Release(b));
      }
    }
  }

  /** A line outside the table changes nothing but the counter and is quoted
      back; a line inside the table never gets that reply. */
  lemma UnknownIsReadOnly(p: Pins, n: nat, raw: string)
    ensures var r := OnRx(p, n, Some(raw));
            Strip(raw) !in Vocabulary <==> r.reply == Some(UnknownReply(Strip(raw)))
    ensures Strip(raw) !in Vocabulary ==> OnRx(p, n, Some(raw)) == Outcome(p, Some(UnknownReply(Strip(raw))), n + 1)
  {
    var t := Strip(raw);
    var c := Parse(t);
    assert OnRx(p, n, Some(raw)).reply == Execute(p, c).reply;
    if !c.Unknown? {
      OtherRepliesDiffer(p, t);
    }
  }

  /** No reply of a recognised command is ever the unknown-command reply:
      each differs from it at its first or its eighth character. */
  lemma OtherRepliesDiffer(p: Pins, t: string)
    ensures ActivadosReply != UnknownReply(t) && DesactivadosReply != UnknownReply(t)
    ensures HelpText != UnknownReply(t) && StatusLine(p) != UnknownReply(t)
  {
    var u := UnknownReply(t);
    assert u[0] == 'C' && u[7] == ' ';
    assert ActivadosReply[0] == 'M' && DesactivadosReply[0] == 'M';
    assert HelpText[7] == 's';
    assert StatusLine(p)[0] == 'E';
  }

  /** Matching sees only the stripped text: whitespace around a line changes
      nothing. */
  lemma PaddingIgnored(p: Pins, n: nat, pre: string, raw: string, post: string)
    requires AllSpace(pre) && AllSpace(post)
    ensures OnRx(p, n, Some(pre + raw + post)) == OnRx(p, n, Some(raw))
  {
    StripAbsorbsPadding(pre, raw, post);
  }

  /** Only the six ASCII whitespace characters are stripped: a line that
      starts with a no-break space is not `ACTIVAR`, so it is quoted back as
      unknown and the pins stay as they were. */
  lemma NoBreakSpaceKept(p: Pins, n: nat)
    ensures Strip("\U{A0}ACTIVAR") == "\U{A0}ACTIVAR"
    ensures OnRx(p, n, Some("\U{A0}ACTIVAR")) == Outcome(p, Some(UnknownReply("\U{A0}ACTIVAR")), n + 1)
  {
    StripClean("\U{A0}ACTIVAR");
  }

  // ---------------------------------------------------------------------------
  // Sequences of lines

  /** The state after a sequence of inbound lines, with every reply written,
      in order. */
  datatype Trace = Trace(pins: Pins, received: nat, replies: seq<string>)

  /** Feeds `inputs` to the callback one at a time. */
  function Run(p: Pins, received: nat, inputs: seq<Option<string>>): (r: Trace)
    ensures r.received == received + Decoded(inputs)
    ensures Coherent(p) ==> Coherent(r.pins)
    ensures |r.replies| <= |inputs|
    decreases |inputs|
  {
    if |inputs| == 0 then Trace(p, received, [])
    else
      var o := OnRx(p, received, inputs[0]);
      var rest := Run(o.pins, o.received, inputs[1..]);
      Trace(rest.pins, rest.received, (if o.reply.Some? then [o.reply.value] else []) + rest.replies)
  }

  /** Number of inputs that decoded. */
  function Decoded(inputs: seq<Option<string>>): nat
    decreases |inputs|
  {
    if |inputs| == 0 then 0 else (if inputs[0].Some? then 1 else 0) + Decoded(inputs[1..])
  }

  /** From the all-zero start, once any sequence of inbound lines has been
      handled, no channel has both direction lines high. */
  lemma DispatchNeverBothDirections(inputs: seq<Option<string>>)
    ensures Exclusive(Run(Initial, 0, inputs).pins)
  {
    CoherentIsSafe(Run(Initial, 0, inputs).pins);
  }

  /** Lines that fail to decode are invisible: they change neither the pins,
      the counter nor the replies. */
  lemma {:induction false} FailuresInvisible(p: Pins, received: nat, inputs: seq<Option<string>>)
    requires forall k :: 0 <= k < |inputs| ==> inputs[k].None?
    ensures Run(p, received, inputs) == Trace(p, received, [])
    decreases |inputs|
  {
    if |inputs| > 0 {
      FailuresInvisible(p, received, inputs[1..]);
    }
  }

  /** The command whose only effect on the pins is `op`; `detener` is sent as
      the release of the forward button. */
  function CommandFor(op: Op): (c: Command)
    ensures !c.Unknown?
    ensures ActionOf(c) == [op]
  {
    match op
    case OpActivar => Activar
    case OpDesactivar => Desactivar
    case OpAdelante => Press(Up)
    case OpAtras => Press(Down)
    case OpIzquierda => Press(Left)
    case OpDerecha => Press(Right)
    case OpDetener => Release(Up)
  }

  /** The lines that ask for `ops`, one recognised command per operation. */
  function LinesFor(ops: seq<Op>): (r: seq<Option<string>>)
    ensures |r| == |ops|
    ensures forall k :: 0 <= k < |r| ==> r[k].Some? && r[k].value in Vocabulary
  {
    seq(|ops|, k requires 0 <= k < |ops| => Some(Wire(CommandFor(ops[k]))))
  }

  /** Sending the lines for `ops` performs `ops`, in order. */
  lemma {:induction false} LinesPerformOps(p: Pins, received: nat, ops: seq<Op>)
    ensures Run(p, received, LinesFor(ops)).pins == ApplyAll(p, ops)
    decreases |ops|
  {
    if |ops| > 0 {
      var c := CommandFor(ops[0]);
      OnRxWire(p, received, c);
      ExecuteUsesOperations(p, c);
      assert LinesFor(ops)[1..] == LinesFor(ops[1..]);
      LinesPerformOps(Apply(p, ops[0]), received + 1, ops[1..]);
    }
  }

  /** Every coherent state is reached from power-up by some sequence of
      recognised lines, so `Coherent` is exactly the set of output states the
      callback can produce. */
  lemma LinesReachEveryCoherent(p: Pins) returns (lines: seq<Option<string>>)
    requires Coherent(p)
    ensures Run(Initial, 0, lines).pins == p
    ensures forall k :: 0 <= k < |lines| ==> lines[k].Some? && lines[k].value in Vocabulary
  {
    var ops := CoherentIsReachable(p);
    lines := LinesFor(ops);
    LinesPerformOps(Initial, 0, ops);
  }
}

=== FILE: firmware.dfy ===
/** The firmware as a whole: pins set to 0 at power-up, then the main
    program's own steps (the banner, the self-test pulse and, on interruption,
    the shutdown sequence) with received lines handled in between at any
    point. The receive callback is registered before the banner is sent and
    never unregistered, so a line may be handled before, during or after any
    of the main program's steps. */
module Firmware {
  import opened Wrappers
  import opened Motors
  import opened Dispatcher

  /** The start-up self test: `activar_motores`, a pause, then `detener`. */
  function SelfTest(p: Pins): (r: Pins)
    ensures AllLow(r)
  {
    Detener(ActivarMotores(p))
  }

  /** The shutdown sequence: `detener`, then `desactivar_motores`. */
  function Shutdown(p: Pins): (r: Pins)
    ensures AllLow(r)
    ensures MotionOf(r) == Idle
  {
    DesactivarMotores(Detener(p))
  }

  /** From power-up, with no line received, the self test starts and ends
      with every pin at 0, and while the enables are up no direction line is
      set, so neither wheel turns. */
  lemma SelfTestNeverMoves()
    ensures AllLow(Initial) && AllLow(SelfTest(Initial))
    ensures var pulse := ActivarMotores(Initial);
            pulse.ena && pulse.enb && MotionOf(pulse) == Idle
  {
  }

  /** The `desactivar_motores` after `detener` in the shutdown is redundant:
      `detener` has already lowered both enables. */
  lemma ShutdownIsStop(p: Pins)
    ensures Shutdown(p) == Detener(p)
  {
  }

  // ---------------------------------------------------------------------------
  // Interleaving received lines with the main program

  /** The message written to the link at start-up, with the newline the
      sender appends. */
  const Banner := "Sistema iniciado" + "\n"

  /** Something that happens to the firmware: a received line handled by the
      callback, the banner being sent, or a motor operation of the main
      program. */
  datatype Event = Rx(data: Option<string>) | Announce | Main(op: Op)

  /** The main program's steps up to the idle loop: banner, then the pulse. */
  const StartupSteps: seq<Event> := [Announce, Main(OpActivar), Main(OpDetener)]

  /** The main program's steps on interruption. */
  const ShutdownSteps: seq<Event> := [Main(OpDetener), Main(OpDesactivar)]

  /** The pins, the command counter, and every text written to the link. */
  datatype Machine = Machine(pins: Pins, received: nat, replies: seq<string>)

  /** Power-up: every pin at 0, counter at 0, nothing written. */
  const Boot := Machine(Initial, 0, [])

  function Step(m: Machine, e: Event): (r: Machine)
    ensures Coherent(m.pins) ==> Coherent(r.pins)
    ensures e.Rx? ==> r.received == m.received + (if e.data.Some? then 1 else 0)
    ensures !e.Rx? ==> r.received == m.received
    ensures |m.replies| <= |r.replies| && r.replies[..|m.replies|] == m.replies
  {
    match e
    case Rx(data) =>
      var o := OnRx(m.pins, m.received, data);
      Machine(o.pins, o.received, m.replies + (if o.reply.Some? then [o.reply.value] else []))
    case Announce => Machine(m.pins, m.received, m.replies + [Banner])
    case Main(op) => Machine(Apply(m.pins, op), m.received, m.replies)
  }

  /** Performs `events` in order. */
  function Replay(m: Machine, events: seq<Event>): (r: Machine)
    ensures r.received == m.received + Decoded(Lines(events))
    ensures Coherent(m.pins) ==> Coherent(r.pins)
    ensures |m.replies| <= |r.replies| && r.replies[..|m.replies|] == m.replies
    decreases |events|
  {
    if |events| == 0 then m
    else
      DecodedFirst(events);
      Replay(Step(m, events[0]), events[1..])
  }

  /** The first event contributes one decoded line exactly when it is a
      received line that decoded. */
  lemma DecodedFirst(events: seq<Event>)
    requires |events| > 0
    ensures Decoded(Lines(events))
            == (if events[0].Rx? && events[0].data.Some? then 1 else 0) + Decoded(Lines(events[1..]))
  {
    var rest := Lines(events[1..]);
    if events[0].Rx? {
      assert Lines(events) == [events[0].data] + rest;
      assert ([events[0].data] + rest)[1..] == rest;
    } else {
      assert Lines(events) == [] + rest == rest;
    }
  }

  /** The received lines among `events`, in order. */
  function Lines(events: seq<Event>): seq<Option<string>>
    decreases |events|
  {
    if |events| == 0 then []
    else (if events[0].Rx? then [events[0].data] else []) + Lines(events[1..])
  }

  /** Performing `a + b` is performing `a`, then `b`. */
  lemma {:induction false} ReplayAppend(m: Machine, a: seq<Event>, b: seq<Event>)
    ensures Replay(m, a + b) == Replay(Replay(m, a), b)
    decreases |a|
  {
    if |a| == 0 {
      assert a + b == b;
    } else {
      assert (a + b)[1..] == a[1..] + b;
      ReplayAppend(Step(m, a[0]), a[1..], b);
    }
  }

  /** Between any two events of any run, lines handled during start-up and
      shutdown included, the pins are coherent and no channel has both
      direction lines high. */
  lemma SessionNeverBothDirections(events: seq<Event>, k: nat)
    requires k <= |events|
    ensures Coherent(Replay(Boot, events[..k]).pins)
    ensures Exclusive(Replay(Boot, events[..k]).pins)
  {
    CoherentIsSafe(Replay(Boot, events[..k]).pins);
  }

  /** With no line received, start-up writes the banner and leaves every pin
      at 0. */
  lemma StartupAlone()
    ensures Replay(Boot, StartupSteps) == Machine(Initial, 0, [Banner])
  {
  }

  /** A press handled before the pulse is cancelled by the pulse's `detener`:
      the car drives forward until the self test ends, then stops. */
  lemma EarlyPressCancelled()
    ensures Replay(Boot, [Rx(Some(PressCode(Up)))]).pins == Adelante(Initial)
    ensures Replay(Boot, [Rx(Some(PressCode(Up)))] + StartupSteps).pins == Initial
  {
    PressCodes(Initial, 0, Up);
    ReplayAppend(Boot, [Rx(Some(PressCode(Up)))], StartupSteps);
  }

  /** The shutdown sequence, performed without lines in between, leaves every
      pin at 0 whatever came before. */
  lemma ShutdownEndsLow(m: Machine)
    ensures AllLow(Replay(m, ShutdownSteps).pins)
    ensures Replay(m, ShutdownSteps).pins == Shutdown(m.pins)
  {
  }

  /** A line handled between the two shutdown writes can set direction lines
      again, but the final `desactivar_motores` still lowers both enables, so
      neither wheel turns afterwards. */
  lemma ShutdownDisables(m: Machine, between: seq<Option<string>>)
    ensures var r := Replay(m, [Main(OpDetener)] + Rxs(between) + [Main(OpDesactivar)]);
            !r.pins.ena && !r.pins.enb && MotionOf(r.pins) == Idle
  {
    ReplayAppend(m, [Main(OpDetener)] + Rxs(between), [Main(OpDesactivar)]);
  }

  /** The received-line events for `lines`, in order. */
  function Rxs(lines: seq<Option<string>>): (r: seq<Event>)
    ensures Lines(r) == lines
    ensures |r| == |lines| && forall k :: 0 <= k < |r| ==> r[k].Rx?
    decreases |lines|
  {
    if |lines| == 0 then []
    else
      var r := [Rx(lines[0])] + Rxs(lines[1..]);
      assert r[1..] == Rxs(lines[1..]);
      assert lines == [lines[0]] + lines[1..];
      r
  }

  /** A whole run: power-up, then `events`. The counter counts exactly the
      decoded lines and the outputs end coherent. */
  function RunSession(events: seq<Event>): (r: Machine)
    ensures r.received == Decoded(Lines(events))
    ensures Coherent(r.pins)
  {
    Replay(Boot, events)
  }
}

=== FILE: motors.dfy ===
/** The six digital outputs that drive the two H-bridge channels, and the
    seven operations of the firmware that rewrite them. */
module Motors {

  /** Output levels of the six pins; `true` is a pin driven to 1.
      Left motor: `ena` (enable), `in1`, `in2` (direction).
      Right motor: `enb` (enable), `in3`, `in4` (direction). */
  datatype Pins = Pins(ena: bool, in1: bool, in2: bool, enb: bool, in3: bool, in4: bool)

  /** The level every pin is set to when the firmware starts. */
  const Initial := Pins(false, false, false, false, false, false)

  /** Every pin is at 0. */
  predicate AllLow(p: Pins) {
    !p.ena && !p.in1 && !p.in2 && !p.enb && !p.in3 && !p.in4
  }

  /** Neither channel has both of its direction lines high. */
  predicate Exclusive(p: Pins) {
    !(p.in1 && p.in2) && !(p.in3 && p.in4)
  }

  /** `p` and `q` agree on the four direction lines. */
  predicate SameDirections(p: Pins, q: Pins) {
    p.in1 == q.in1 && p.in2 == q.in2 && p.in3 == q.in3 && p.in4 == q.in4
  }

  // ---------------------------------------------------------------------------
  // What the wheels do

  /** What one motor does under its channel's three lines. */
  datatype Spin = Still | Ahead | Back

  /** A channel turns its motor only when enabled and driven by exactly one
      direction line: the first line drives it ahead, the second back. */
  function ChannelSpin(enable: bool, ahead: bool, back: bool): Spin {
    if enable && ahead && !back then Ahead
    else if enable && !ahead && back then Back
    else Still
  }

  function LeftSpin(p: Pins): Spin {
    ChannelSpin(p.ena, p.in1, p.in2)
  }

  function RightSpin(p: Pins): Spin {
    ChannelSpin(p.enb, p.in3, p.in4)
  }

  /** How the vehicle moves, derived from both wheels. `OneWheel` covers the
      combinations none of the operations aims for. */
  datatype Motion = Idle | Forward | Reverse | TurningLeft | TurningRight | OneWheel

  function MotionOf(p: Pins): Motion {
    match (LeftSpin(p), RightSpin(p))
    case (Still, Still) => Idle
    case (Ahead, Ahead) => Forward
    case (Back, Back) => Reverse
    case (Back, Ahead) => TurningLeft
    case (Ahead, Back) => TurningRight
    case _ => OneWheel
  }

  // ---------------------------------------------------------------------------
  // The seven operations, each written as the pin writes the firmware makes

  /** `activar_motores`: raise both enables. */
  function ActivarMotores(p: Pins): (r: Pins)
    ensures r.ena && r.enb
    ensures SameDirections(p, r)
  {
    p.(ena := true, enb := true)
  }

  /** `desactivar_motores`: lower both enables. */
  function DesactivarMotores(p: Pins): (r: Pins)
    ensures !r.ena && !r.enb
    ensures SameDirections(p, r)
    ensures MotionOf(r) == Idle
  {
    p.(ena := false, enb := false)
  }

  /** `adelante`: both wheels forward. */
  function Adelante(p: Pins): (r: Pins)
    ensures LeftSpin(r) == Ahead && RightSpin(r) == Ahead
    ensures MotionOf(r) == Forward
  {
    ActivarMotores(p).(in1 := true, in2 := false).(in3 := true, in4 := false)
  }

  /** `atras`: both wheels back. */
  function Atras(p: Pins): (r: Pins)
    ensures LeftSpin(r) == Back && RightSpin(r) == Back
    ensures MotionOf(r) == Reverse
  {
    ActivarMotores(p).(in1 := false, in2 := true).(in3 := false, in4 := true)
  }

  /** `izquierda`: left wheel back, right wheel forward (turn in place to the left). */
  function Izquierda(p: Pins): (r: Pins)
    ensures LeftSpin(r) == Back && RightSpin(r) == Ahead
    ensures MotionOf(r) == TurningLeft
  {
    ActivarMotores(p).(in1 := false, in2 := true).(in3 := true, in4 := false)
  }

  /** `derecha`: left wheel forward, right wheel back (turn in place to the right). */
  function Derecha(p: Pins): (r: Pins)
    ensures LeftSpin(r) == Ahead && RightSpin(r) == Back
    ensures MotionOf(r) == TurningRight
  {
    ActivarMotores(p).(in1 := true, in2 := false).(in3 := false, in4 := true)
  }

  /** `detener`: clear the four direction lines, then lower both enables.
      Whatever the prior state, every pin ends at 0. */
  function Detener(p: Pins): (r: Pins)
    ensures AllLow(r)
    ensures MotionOf(r) == Idle
  {
    DesactivarMotores(p.(in1 := false, in2 := false, in3 := false, in4 := false))
  }

  /** A wheel that turns has exactly one direction line high and its enable
      on, so naming the spin of both wheels names all six pins. */
  lemma SpinsDeterminePins(p: Pins, q: Pins)
    requires LeftSpin(p) != Still && RightSpin(p) != Still
    requires LeftSpin(p) == LeftSpin(q) && RightSpin(p) == RightSpin(q)
    ensures p == q
  {
  }

  // ---------------------------------------------------------------------------
  // Operations as data, and sequences of them

  datatype Op =
    | OpActivar | OpDesactivar
    | OpAdelante | OpAtras | OpIzquierda | OpDerecha
    | OpDetener

  function Apply(p: Pins, op: Op): Pins {
    match op
    case OpActivar => ActivarMotores(p)
    case OpDesactivar => DesactivarMotores(p)
    case OpAdelante => Adelante(p)
    case OpAtras => Atras(p)
    case OpIzquierda => Izquierda(p)
    case OpDerecha => Derecha(p)
    case OpDetener => Detener(p)
  }

  /** Performs `ops` in order, starting from `p`. */
  function ApplyAll(p: Pins, ops: seq<Op>): Pins
    decreases |ops|
  {
    if |ops| == 0 then p else ApplyAll(Apply(p, ops[0]), ops[1..])
  }

  /** Every operation is idempotent: doing it twice is doing it once. */
  lemma ApplyIdempotent(p: Pins, op: Op)
    ensures Apply(Apply(p, op), op) == Apply(p, op)
  {
  }

  /** Running `ops ++ more` is running `ops`, then `more`. */
  lemma {:induction false} ApplyAllAppend(p: Pins, ops: seq<Op>, more: seq<Op>)
    ensures ApplyAll(p, ops + more) == ApplyAll(ApplyAll(p, ops), more)
    decreases |ops|
  {
    if |ops| == 0 {
      assert ops + more == more;
    } else {
      assert (ops + more)[1..] == ops[1..] + more;
      ApplyAllAppend(Apply(p, ops[0]), ops[1..], more);
    }
  }

  // ---------------------------------------------------------------------------
  // Which pin states the operations can reach

  /** The states the operations can reach from `Initial`: both enables at the
      same level, and the direction lines either all low or each channel
      driven by exactly one of its two lines. */
  predicate Coherent(p: Pins) {
    && p.ena == p.enb
    && ((!p.in1 && !p.in2 && !p.in3 && !p.in4) || (p.in1 != p.in2 && p.in3 != p.in4))
  }

  /** A coherent state never has both direction lines of a channel high, and
      never leaves the vehicle with just one wheel turning. */
  lemma CoherentIsSafe(p: Pins)
    requires Coherent(p)
    ensures Exclusive(p)
    ensures MotionOf(p) != OneWheel
  {
  }

  /** Each operation keeps the pins coherent. */
  lemma ApplyKeepsCoherent(p: Pins, op: Op)
    requires Coherent(p)
    ensures Coherent(Apply(p, op))
  {
  }

  /** Any sequence of operations keeps the pins coherent. */
  lemma {:induction false} ApplyAllKeepsCoherent(p: Pins, ops: seq<Op>)
    requires Coherent(p)
    ensures Coherent(ApplyAll(p, ops))
    decreases |ops|
  {
    if |ops| > 0 {
      ApplyKeepsCoherent(p, ops[0]);
      ApplyAllKeepsCoherent(Apply(p, ops[0]), ops[1..]);
    }
  }

  /** Starting from the initial all-zero state, no sequence of operations
      leaves both direction lines of a channel high once it is done (the
      single writes inside an operation are treated in `SourceOrderOverlaps`
      and `SafeOrderNeverBothDirections`). */
  lemma NeverBothDirections(ops: seq<Op>)
    ensures Exclusive(ApplyAll(Initial, ops))
  {
    ApplyAllKeepsCoherent(Initial, ops);
    CoherentIsSafe(ApplyAll(Initial, ops));
  }

  /** Every coherent state is reached from `Initial` by some sequence of
      operations, so `Coherent` is exactly the reachable set. */
  lemma CoherentIsReachable(p: Pins) returns (ops: seq<Op>)
    requires Coherent(p)
    ensures ApplyAll(Initial, ops) == p
  {
    var drive: seq<Op> :=
      if !p.in1 && !p.in2 then [OpActivar]
      else if p.in1 && p.in3 then [OpAdelante]
      else if p.in2 && p.in4 then [OpAtras]
      else if p.in2 && p.in3 then [OpIzquierda]
      else [OpDerecha];
    ops := if p.ena then drive else drive + [OpDesactivar];
    assert ApplyAll(Initial, drive) == ApplyAll(Apply(Initial, drive[0]), []);
    if !p.ena {
      ApplyAllAppend(Initial, drive, [OpDesactivar]);
    }
  }

  // ---------------------------------------------------------------------------
  // The operations as single pin writes

  /** One of the six outputs. */
  datatype Output = Ena | In1 | In2 | Enb | In3 | In4

  /** The level of output `o` in `p`. */
  function Level(p: Pins, o: Output): bool {
    match o
    case Ena => p.ena
    case In1 => p.in1
    case In2 => p.in2
    case Enb => p.enb
    case In3 => p.in3
    case In4 => p.in4
  }

  /** One `Pin.value(...)` call: output `out` is driven to `level`. */
  datatype Write = Write(out: Output, level: bool)

  /** Performs one write. */
  function Set(p: Pins, w: Write): (r: Pins)
    ensures Level(r, w.out) == w.level
    ensures forall o: Output :: o != w.out ==> Level(r, o) == Level(p, o)
  {
    match w.out
    case Ena => p.(ena := w.level)
    case In1 => p.(in1 := w.level)
    case In2 => p.(in2 := w.level)
    case Enb => p.(enb := w.level)
    case In3 => p.(in3 := w.level)
    case In4 => p.(in4 := w.level)
  }

  /** Performs `ws` in order. */
  function SetAll(p: Pins, ws: seq<Write>): Pins
    decreases |ws|
  {
    if |ws| == 0 then p else SetAll(Set(p, ws[0]), ws[1..])
  }

  /** No channel has both direction lines high before, between or after any
      of the writes `ws` performed from `p`. */
  predicate ExclusiveThroughout(p: Pins, ws: seq<Write>)
    decreases |ws|
  {
    Exclusive(p) && (|ws| == 0 || ExclusiveThroughout(Set(p, ws[0]), ws[1..]))
  }

  /** A state is exclusive throughout exactly when every prefix of the writes
      leaves it exclusive. */
  lemma {:induction false} ExclusiveThroughoutPrefixes(p: Pins, ws: seq<Write>)
    ensures ExclusiveThroughout(p, ws) <==> forall k :: 0 <= k <= |ws| ==> Exclusive(SetAll(p, ws[..k]))
    decreases |ws|
  {
    if |ws| > 0 {
      ExclusiveThroughoutPrefixes(Set(p, ws[0]), ws[1..]);
      forall k | 1 <= k <= |ws|
        ensures SetAll(p, ws[..k]) == SetAll(Set(p, ws[0]), ws[1..][..k - 1])
      {
        assert ws[..k][1..] == ws[1..][..k - 1];
      }
      assert SetAll(p, ws[..0]) == p;
      if forall k :: 0 <= k <= |ws| ==> Exclusive(SetAll(p, ws[..k])) {
        forall j | 0 <= j <= |ws| - 1
          ensures Exclusive(SetAll(Set(p, ws[0]), ws[1..][..j]))
        {
          assert Exclusive(SetAll(p, ws[..j + 1]));
        }
      }
    } else {
      assert SetAll(p, ws[..0]) == p;
    }
  }

  /** The two enable writes of `activar_motores` (lines 28-29). */
  const EnableWrites: seq<Write> := [Write(Ena, true), Write(Enb, true)]

  /** The two enable writes of `desactivar_motores` (lines 33-34). */
  const DisableWrites: seq<Write> := [Write(Ena, false), Write(Enb, false)]

  /** Each operation as the firmware writes it: the calls of lines 26-91, in
      the order they appear. */
  function SourceWrites(op: Op): seq<Write> {
    match op
    case OpActivar => EnableWrites
    case OpDesactivar => DisableWrites
    case OpAdelante =>
      EnableWrites + [Write(In1, true), Write(In2, false), Write(In3, true), Write(In4, false)]
    case OpAtras =>
      EnableWrites + [Write(In1, false), Write(In2, true), Write(In3, false), Write(In4, true)]
    case OpIzquierda =>
      EnableWrites + [Write(In1, false), Write(In2, true), Write(In3, true), Write(In4, false)]
    case OpDerecha =>
      EnableWrites + [Write(In1, true), Write(In2, false), Write(In3, false), Write(In4, true)]
    case OpDetener =>
      [Write(In1, false), Write(In2, false), Write(In3, false), Write(In4, false)] + DisableWrites
  }

  /** The same operations with each channel's falling direction line written
      before its rising one. */
  function SafeWrites(op: Op): seq<Write> {
    match op
    case OpAdelante =>
      EnableWrites + [Write(In2, false), Write(In1, true), Write(In4, false), Write(In3, true)]
    case OpIzquierda =>
      EnableWrites + [Write(In1, false), Write(In2, true), Write(In4, false), Write(In3, true)]
    case OpDerecha =>
      EnableWrites + [Write(In2, false), Write(In1, true), Write(In3, false), Write(In4, true)]
    case _ => SourceWrites(op)
  }

  /** Written as the firmware writes them, the pin writes end in the state
      the operation names. */
  lemma SourceWritesPerformOp(p: Pins, op: Op)
    ensures SetAll(p, SourceWrites(op)) == Apply(p, op)
  {
    match op
    case OpActivar => UnrollPair(p, SourceWrites(op));
    case OpDesactivar => UnrollPair(p, SourceWrites(op));
    case OpAdelante => UnrollEnd(p, SourceWrites(op));
    case OpAtras => UnrollEnd(p, SourceWrites(op));
    case OpIzquierda => UnrollEnd(p, SourceWrites(op));
    case OpDerecha => UnrollEnd(p, SourceWrites(op));
    case OpDetener => UnrollEnd(p, SourceWrites(op));
  }

  /** The safe order ends in the same state: the two orders differ only in
      what is driven between the writes. */
  lemma SafeWritesPerformOp(p: Pins, op: Op)
    ensures SetAll(p, SafeWrites(op)) == Apply(p, op)
  {
    match op
    case OpActivar => UnrollPair(p, SafeWrites(op));
    case OpDesactivar => UnrollPair(p, SafeWrites(op));
    case OpAdelante => UnrollEnd(p, SafeWrites(op));
    case OpAtras => UnrollEnd(p, SafeWrites(op));
    case OpIzquierda => UnrollEnd(p, SafeWrites(op));
    case OpDerecha => UnrollEnd(p, SafeWrites(op));
    case OpDetener => UnrollEnd(p, SafeWrites(op));
  }

  /** Performing `[w] + rest` is performing `w`, then `rest`. */
  lemma Peel(p: Pins, w: Write, rest: seq<Write>)
    ensures SetAll(p, [w] + rest) == SetAll(Set(p, w), rest)
    ensures ExclusiveThroughout(p, [w] + rest) <==> Exclusive(p) && ExclusiveThroughout(Set(p, w), rest)
  {
    assert ([w] + rest)[1..] == rest;
  }

  /** The state after all six writes of a six-write list. */
  lemma UnrollEnd(p: Pins, ws: seq<Write>)
    requires |ws| == 6
    ensures SetAll(p, ws) == Set(Set(Set(Set(Set(Set(p, ws[0]), ws[1]), ws[2]), ws[3]), ws[4]), ws[5])
  {
    var t5 := [ws[5]];
    var t4 := [ws[4]] + t5;
    var t3 := [ws[3]] + t4;
    var t2 := [ws[2]] + t3;
    var t1 := [ws[1]] + t2;
    assert ws == [ws[0]] + t1;
    var q1 := Set(p, ws[0]);
    var q2 := Set(q1, ws[1]);
    var q3 := Set(q2, ws[2]);
    var q4 := Set(q3, ws[3]);
    Peel(Set(q4, ws[4]), ws[5], []);
    Peel(q4, ws[4], t5);
    Peel(q3, ws[3], t4);
    Peel(q2, ws[2], t3);
    Peel(q1, ws[1], t2);
    Peel(p, ws[0], t1);
  }

  /** A six-write list keeps the channels exclusive exactly when each of the
      seven states it passes through is exclusive. */
  lemma UnrollThroughout(p: Pins, ws: seq<Write>)
    requires |ws| == 6
    ensures var q1 := Set(p, ws[0]);
            var q2 := Set(q1, ws[1]);
            var q3 := Set(q2, ws[2]);
            var q4 := Set(q3, ws[3]);
            var q5 := Set(q4, ws[4]);
            ExclusiveThroughout(p, ws) <==>
              Exclusive(p) && Exclusive(q1) && Exclusive(q2) && Exclusive(q3)
              && Exclusive(q4) && Exclusive(q5) && Exclusive(Set(q5, ws[5]))
  {
    var t5 := [ws[5]];
    var t4 := [ws[4]] + t5;
    var t3 := [ws[3]] + t4;
    var t2 := [ws[2]] + t3;
    var t1 := [ws[1]] + t2;
    assert ws == [ws[0]] + t1;
    var q1 := Set(p, ws[0]);
    var q2 := Set(q1, ws[1]);
    var q3 := Set(q2, ws[2]);
    var q4 := Set(q3, ws[3]);
    Peel(Set(q4, ws[4]), ws[5], []);
    Peel(q4, ws[4], t5);
    Peel(q3, ws[3], t4);
    Peel(q2, ws[2], t3);
    Peel(q1, ws[1], t2);
    Peel(p, ws[0], t1);
  }

  /** The states after the first three and the first five writes of a
      six-write list. */
  lemma UnrollPrefixes(p: Pins, ws: seq<Write>)
    requires |ws| == 6
    ensures SetAll(p, ws[..3]) == Set(Set(Set(p, ws[0]), ws[1]), ws[2])
    ensures SetAll(p, ws[..5]) == Set(Set(Set(Set(Set(p, ws[0]), ws[1]), ws[2]), ws[3]), ws[4])
  {
    var q1 := Set(p, ws[0]);
    var q2 := Set(q1, ws[1]);
    var q3 := Set(q2, ws[2]);
    var u2 := [ws[2]];
    var u1 := [ws[1]] + u2;
    assert ws[..3] == [ws[0]] + u1;
    Peel(q2, ws[2], []);
    Peel(q1, ws[1], u2);
    Peel(p, ws[0], u1);
    var v4 := [ws[4]];
    var v3 := [ws[3]] + v4;
    var v2 := [ws[2]] + v3;
    var v1 := [ws[1]] + v2;
    assert ws[..5] == [ws[0]] + v1;
    Peel(Set(q3, ws[3]), ws[4], []);
    Peel(q3, ws[3], v4);
    Peel(q2, ws[2], v3);
    Peel(q1, ws[1], v2);
    Peel(p, ws[0], v1);
  }

  /** Every state a two-write list passes through, spelled out. */
  lemma UnrollPair(p: Pins, ws: seq<Write>)
    requires |ws| == 2
    ensures var q1 := Set(p, ws[0]);
            var q2 := Set(q1, ws[1]);
            && (ExclusiveThroughout(p, ws) <==> Exclusive(p) && Exclusive(q1) && Exclusive(q2))
            && SetAll(p, ws) == q2
  {
    assert ws == [ws[0]] + [ws[1]];
    Peel(Set(p, ws[0]), ws[1], []);
    Peel(p, ws[0], [ws[1]]);
  }

  /** As written, `adelante` right after `atras` raises IN1 while IN2 is
      still high (line 41), then IN3 while IN4 is still high (line 44), both
      with the channel enabled. */
  lemma SourceOrderOverlaps()
    ensures var ws := SourceWrites(OpAdelante);
            SetAll(Atras(Initial), ws[..3]) == Pins(true, true, true, true, false, true)
            && SetAll(Atras(Initial), ws[..5]) == Pins(true, true, false, true, true, true)
    ensures !ExclusiveThroughout(Atras(Initial), SourceWrites(OpAdelante))
  {
    UnrollPrefixes(Atras(Initial), SourceWrites(OpAdelante));
    UnrollThroughout(Atras(Initial), SourceWrites(OpAdelante));
  }

  /** With each falling line written first, every operation from an exclusive
      state stays exclusive after every single write. */
  lemma SafeOrderExclusive(p: Pins, op: Op)
    requires Exclusive(p)
    ensures ExclusiveThroughout(p, SafeWrites(op))
  {
    var ws := SafeWrites(op);
    if |ws| == 6 {
      UnrollThroughout(p, ws);
    } else {
      UnrollPair(p, ws);
    }
  }

  /** From power-up, whatever operations follow, no channel ever has both
      direction lines high, not even between the single writes of an
      operation, once the writes are in the safe order. */
  lemma SafeOrderNeverBothDirections(ops: seq<Op>, i: nat, k: nat)
    requires i < |ops| && k <= |SafeWrites(ops[i])|
    ensures Exclusive(SetAll(ApplyAll(Initial, ops[..i]), SafeWrites(ops[i])[..k]))
  {
    var p := ApplyAll(Initial, ops[..i]);
    ApplyAllKeepsCoherent(Initial, ops[..i]);
    CoherentIsSafe(p);
    SafeOrderExclusive(p, ops[i]);
    ExclusiveThroughoutPrefixes(p, SafeWrites(ops[i]));
  }
}

=== FILE: text.dfy ===
/** MicroPython's `str.strip()` with no argument: removes leading and
    trailing characters drawn from its fixed whitespace set. */
module Text {

  /** The six characters MicroPython's argument-less `strip()` removes:
      TAB, LF, VT, FF, CR and SPACE. Other characters Unicode calls
      whitespace (NO-BREAK SPACE, the FS..US separators, ...) are kept. */
  predicate IsSpace(c: char): (r: bool)
    ensures r <==> c in {' ', '\t', '\n', '\r', '\U{B}', '\U{C}'}
  {
    ('\t' <= c <= '\r') || c == ' '
  }

  /** Every character of `s` at a position in `[lo, hi)` is whitespace. */
  predicate SpaceIn(s: string, lo: int, hi: int) {
    forall k :: lo <= k < hi && 0 <= k < |s| ==> IsSpace(s[k])
  }

  /** Every character of `s` is whitespace. */
  predicate AllSpace(s: string) {
    SpaceIn(s, 0, |s|)
  }

  /** `s` neither starts nor ends with whitespace (the empty string qualifies). */
  predicate Clean(s: string) {
    |s| == 0 || (!IsSpace(s[0]) && !IsSpace(s[|s| - 1]))
  }

  /** `r` is what remains of `s` once a run of whitespace is cut from each end,
      and `r` itself has no whitespace at either end. */
  ghost predicate StrippedFrom(s: string, r: string) {
    exists i, j :: 0 <= i <= j <= |s| && r == s[i..j]
      && SpaceIn(s, 0, i) && SpaceIn(s, j, |s|) && Clean(r)
  }

  /** The first position at or after `i` that does not hold whitespace, or
      `|s|` if there is none. */
  function Start(s: string, i: nat): (n: nat)
    requires i <= |s|
    ensures i <= n <= |s|
    ensures SpaceIn(s, i, n)
    ensures n < |s| ==> !IsSpace(s[n])
    decreases |s| - i
  {
    if i == |s| || !IsSpace(s[i]) then i else Start(s, i + 1)
  }

  /** The smallest end `n` in `[lo, j]` such that everything from `n` up to
      `j` is whitespace. */
  function End(s: string, lo: nat, j: nat): (n: nat)
    requires lo <= j <= |s|
    ensures lo <= n <= j
    ensures SpaceIn(s, n, j)
    ensures lo < n ==> !IsSpace(s[n - 1])
    decreases j
  {
    if j == lo || !IsSpace(s[j - 1]) then j else End(s, lo, j - 1)
  }

  /** `s.strip()`: leading whitespace is cut first, then trailing whitespace
      from what remains. */
  function Strip(s: string): (r: string)
    ensures |r| <= |s|
    ensures StrippedFrom(s, r)
  {
    var i := Start(s, 0);
    var j := End(s, i, |s|);
    assert SpaceIn(s, 0, i) && SpaceIn(s, j, |s|);
    s[i..j]
  }

  /** Stripping has exactly one possible result: any cut that leaves no
      whitespace at either end is the one `Strip` makes. */
  lemma StripUnique(s: string, r: string)
    requires StrippedFrom(s, r)
    ensures r == Strip(s)
  {
    var i, j :| 0 <= i <= j <= |s| && r == s[i..j]
      && SpaceIn(s, 0, i) && SpaceIn(s, j, |s|) && Clean(r);
    var a := Start(s, 0);
    if i == j {
      // s is whitespace throughout, so both cuts meet at its end
      assert SpaceIn(s, 0, |s|);
      assert a == |s|;
    } else {
      assert s[i] == r[0] && s[j - 1] == r[|r| - 1];
      StartAt(s, i);
      EndAt(s, i, j);
    }
  }

  /** Whitespace up to a non-space character at `i` puts the start at `i`. */
  lemma StartAt(s: string, i: nat)
    requires i < |s| && SpaceIn(s, 0, i) && !IsSpace(s[i])
    ensures Start(s, 0) == i
  {
  }

  /** Whitespace from `j` to the end, after a non-space character at `j - 1`,
      puts the end at `j`. */
  lemma EndAt(s: string, lo: nat, j: nat)
    requires lo < j <= |s| && SpaceIn(s, j, |s|) && !IsSpace(s[j - 1])
    ensures End(s, lo, |s|) == j
  {
  }

  /** A cut of whitespace from both ends that leaves a clean text is the
      stripped text. */
  lemma CutIsStrip(s: string, r: string, i: nat, j: nat)
    requires i <= j <= |s| && r == s[i..j]
    requires SpaceIn(s, 0, i) && SpaceIn(s, j, |s|) && Clean(r)
    ensures r == Strip(s)
  {
    StripUnique(s, r);
  }

  /** A text with no whitespace at either end strips to itself. */
  lemma StripClean(t: string)
    requires Clean(t)
    ensures Strip(t) == t
  {
    assert t[0..|t|] == t;
    CutIsStrip(t, t, 0, |t|);
  }

  /** Stripping an already-stripped string changes nothing. */
  lemma StripIdempotent(s: string)
    ensures Strip(Strip(s)) == Strip(s)
  {
    var r := Strip(s);
    assert r[0..|r|] == r;
    assert StrippedFrom(r, r);
    StripUnique(r, r);
  }

  /** Whitespace padding on either side of a clean text is removed, and only
      the padding: the text itself comes back unchanged. */
  lemma StripPadded(pre: string, t: string, post: string)
    requires AllSpace(pre) && AllSpace(post) && Clean(t)
    ensures Strip(pre + t + post) == t
  {
    var s := pre + t + post;
    var i, j := |pre|, |pre| + |t|;
    assert s[i..j] == t;
    assert forall k :: 0 <= k < i ==> s[k] == pre[k];
    assert forall k :: j <= k < |s| ==> s[k] == post[k - j];
    assert StrippedFrom(s, t);
    StripUnique(s, t);
  }

  /** The cut `Strip` makes, as positions. */
  lemma StripCut(s: string) returns (i: nat, j: nat)
    ensures i <= j <= |s| && Strip(s) == s[i..j]
    ensures SpaceIn(s, 0, i) && SpaceIn(s, j, |s|) && Clean(s[i..j])
  {
    i := Start(s, 0);
    j := End(s, i, |s|);
    if i < j {
      assert s[i..j][0] == s[i] && s[i..j][j - i - 1] == s[j - 1];
    }
  }

  /** Whitespace at the ends of `s`, with whitespace padding added, is
      whitespace at the ends of the padded text. */
  lemma PaddedSpace(pre: string, s: string, post: string, i: nat, j: nat)
    requires AllSpace(pre) && AllSpace(post)
    requires i <= j <= |s| && SpaceIn(s, 0, i) && SpaceIn(s, j, |s|)
    ensures SpaceIn(pre + s + post, 0, |pre| + i)
    ensures SpaceIn(pre + s + post, |pre| + j, |pre + s + post|)
  {
    var left := pre + s;
    var whole := left + post;
    assert forall k :: 0 <= k < |pre| ==> left[k] == pre[k];
    assert forall k :: |pre| <= k < |left| ==> left[k] == s[k - |pre|];
    assert forall k :: 0 <= k < |left| ==> whole[k] == left[k];
    assert forall k :: |left| <= k < |whole| ==> whole[k] == post[k - |left|];
  }

  /** Extra whitespace around any text is stripped along with whatever
      whitespace the text already had. */
  lemma StripAbsorbsPadding(pre: string, s: string, post: string)
    requires AllSpace(pre) && AllSpace(post)
    ensures Strip(pre + s + post) == Strip(s)
  {
    var i, j := StripCut(s);
    var r := s[i..j];
    var whole := pre + s + post;
    var m := |pre|;
    PaddedSpace(pre, s, post, i, j);
    assert whole[m + i..m + j] == r by {
      assert forall k :: m + i <= k < m + j ==> whole[k] == s[k - m];
    }
    CutIsStrip(whole, r, m + i, m + j);
  }
}

=== FILE: wrappers.dfy ===
/** An optional value: absent replies, and inbound data that could not be
    decoded. */
module Wrappers {

  datatype Option<+T> = None | Some(value: T)
}
